=== FILE: README.md ===
# Torch-height control for Grbl-Mega-Plasma, in Dafny

This project models the torch-height-control (THC) add-on of Grbl-Mega-Plasma, a
Grbl build for the ATmega2560, and proves properties of the model. The add-on
has five parts:

- **the control law** (`thc_update`): a bang-bang controller with a
  hysteresis band around a voltage setpoint. It drives two independent jog
  flags, `jog_z_up` and `jog_z_down`;
- **the Timer2 overflow interrupt**: on each tick it takes at most one Z step
  toward the flags, with the direction pin set through `dir_invert_mask`, and it
  runs the control law on every eighth tick;
- **the ADC**: register set-up, the start of a conversion, and the
  conversion-complete interrupt that builds the 10-bit reading from ADCL and
  ADCH;
- **the pin command** (`ports_manage`): it refuses the 38 pins the machine uses
  and otherwise dispatches to set-mode, write or read;
- **the PWM driver** for the 16-bit timers 4 and 5: clock select, waveform
  mode, TOP value, per-channel enable and disable, and the `pwmManage` command
  dispatcher.

Each interrupt handler and command is modelled as a pure function. It maps the
state it touches (jog flags, THC settings, `sys_position`, `millis_timer`, and
registers held as `bv8` bit vectors or 16-bit words) to the new state. The
contracts also state which bits stay unchanged.

Modules and files:

- `bits.dfy` (`Bits`): single-bit set and clear on 8-bit registers, the
  "same outside these bits" frame predicate, and 16-bit truncation.
- `line.dfy` (`Line`): the command-line buffer, read at fixed offsets. Positions
  past the end read as NUL.
- `thc.dfy` (`Thc`): `thc_initialize` and `thc_update`.
- `timer.dfy` (`Timer`): `step_z`, `set_z_dir_low`, `set_z_dir_high` and the
  Timer2 overflow interrupt.
- `adc.dfy` (`Adc`): `adc_setup`, `start_adc_convertion` and the ADC interrupt,
  with the ADCL/ADCH read latch of the ATmega2560 data sheet (section 26.8.3).
- `ports.dfy` (`Ports`): `pinBlocked` and `ports_manage`.
- `pwm.dfy` (`Pwm`): `pwmTimerFreq`, `pwmConfCount`, `pwmConfTimer`,
  `pwmChannelEnable`, `pwmDisable` and `pwmManage`.

On the AVR, `int` has 16 bits and `uint16_t` is `unsigned int`. So the sums
and differences of two `uint16_t` values in thc.c are unsigned 16-bit
arithmetic and wrap. See "## Findings".

## Model

| member | source | states |
|---|---|---|
| Thc.Initialize | thc.c:7-13 | The defaults are setpoint 3, hysteresis 1 and the controller off. The jog flags are left as they were. |
| Thc.Update | thc.c:16-39 | When disengaged, nothing changes. When engaged, the result follows the reference decision `Evaluate`: an in-band reading clears both flags. Above the band, `jog_z_down` is raised and `jog_z_up` is kept. Otherwise `jog_z_up` is raised and `jog_z_down` is kept. The setpoint, hysteresis and engaged flag never change. |
| Thc.UpdateAsWritten | thc.c:16-39 | The law with the band bounds computed modulo 2^16, as the AVR compiles it. Disengaged, nothing changes. Engaged and inside that band, both flags are cleared. Outside it, a reading above the setpoint raises `jog_z_down` and keeps `jog_z_up`; any other reading raises `jog_z_up` and keeps `jog_z_down`. |
| Thc.AsWrittenWrapsAtZeroSetpoint | thc.c:22 | With setpoint 0 and hysteresis 1, the reading 0 holds under the integer law but raises `jog_z_up` in the wrapping arithmetic. |
| Thc.AsWrittenAgreesWithoutWrap | thc.c:22 | When `hysteresis <= setpoint` and `setpoint + hysteresis < 65536`, the wrapping law and the integer law agree on every reading. |
| Thc.AsWrittenWrapsBelowZero | thc.c:22 | With setpoint 3 and hysteresis 5, the wrapping band contains no reading at all. The reading 3 raises `jog_z_up`, where the integer law holds. |
| Thc.EdgesAreOutOfBand | thc.c:22-37 | A reading equal to `setpoint - hysteresis` raises `jog_z_up`, whenever that edge is at least 0. One equal to `setpoint + hysteresis` raises `jog_z_down` when the hysteresis is positive, whenever that edge is at most 65535. Each edge holds independently of the other. In both cases the other flag is kept. |
| Thc.ZeroHysteresisNeverClears | thc.c:22 | With hysteresis 0 the band is empty, so an update never clears a raised flag. |
| Thc.DefaultBand | thc.c:10-22 | After initialisation, exactly the reading 3 is in band. |
| Thc.ClearsOnlyInBand | thc.c:20-37 | A flag goes from raised to cleared only through an engaged update on an in-band reading. |
| Thc.UpdateAll | thc.c:16-39 | Any number of updates keeps the setpoint, the hysteresis and the engaged flag. |
| Thc.BothStayUntilInBand | thc.c:22-37 | Once both flags are raised, they stay raised over any run of updates with no engaged in-band reading. |
| Thc.FourReadingScenario | thc.c:22-37 | Setpoint 100, hysteresis 5, readings 100, 94, 106, 97. The decisions are hold, up, down, hold, but after 106 both flags are raised, and 97 clears both. |
| Timer.StepZ | timer.c:19-24 | A step pulse is two writes: the step bit high, then low. No other PORTL bit changes. |
| Timer.SetZDir | timer.c:25-32 | The direction bit takes the requested level. No other PORTL bit changes. |
| Timer.StepWrites | timer.c:39-46 | The direction write and then the pulse. The first write changes only the direction bit, the step bit is high in the second write, and the direction bit is at the requested level in all three writes: the direction is set before the step bit rises. The step bit ends low. In every one of the three writes, no PORTL bit other than those two differs from its value before the step. The step bit has at most one rising edge, and exactly one if it was low before. |
| Timer.MoveZ | timer.c:47-60 | Only the Z entry of `sys_position` moves, by the given amount. No other axis changes. |
| Timer.StepOnce | timer.c:37-60 | One step up or down: the position moves by +1 or -1. Three writes, in each of which the direction pin is high iff (moving down) xor (inversion bit set). The first write changes only the direction pin and the second raises the step pin. There is at most one rising edge. No write moves a PORTL bit other than step and direction. |
| Timer.StepJog | timer.c:37-61 | `jog_z_up` gives +1 and wins over `jog_z_down`, which gives -1. With neither flag there are no writes and no move. When a step is taken, the direction pin is high in all three writes iff (moving down) xor (bit 2 of `dir_invert_mask`). The first write changes only the direction pin and the second raises the step pin. The step bit ends low. No write moves a PORTL bit other than step and direction. |
| Timer.TickIsr | timer.c:35-74 | One tick. It steps on the flags held on entry and moves only the Z position. The control law runs iff the counter is above 7 on entry, and the counter then reads 1. Otherwise the THC state is kept and the counter goes up by one. |
| Timer.Run | timer.c:35-74 | Over any sequence of ticks, only the Z axis moves. After at least one tick the counter is in 1..8, whatever its start. The THC settings are kept. |
| Timer.SteadyClimb | timer.c:37-47 | With `jog_z_up` raised and no engaged in-band reading, n ticks raise Z by exactly n and `jog_z_up` stays raised. |
| Timer.QuietTicks | timer.c:65-73 | From counter m in 1..8, the next 8 - m ticks do not run the law and count up to 8. |
| Timer.EveryEighthTick | timer.c:65-73 | A tick that runs the law is followed by seven ticks that do not, and the ninth tick runs it again. |
| Adc.Present | adc.c:21-27 | In a right-adjusted result, ADCH holds at most the two top bits. |
| Adc.Complete | adc.c:102-103 | A finished conversion reaches ADCL/ADCH only while the pair is not locked by a pending ADCL read. |
| Adc.Combine | adc.c:103 | `ADCL \| (ADCH << 8)` keeps both bytes recoverable. It is below 1024 when ADCH <= 3. |
| Adc.PresentCombineRoundTrip | adc.c:21-27 | Presenting a 10-bit result and combining its two bytes gives the result back. |
| Adc.ConversionIsr | adc.c:99-111 | The stored value carries ADCL as its low byte and ADCH as its high byte, and is at most 1023 when ADCH <= 3. ADSC is set and no other ADCSRA bit changes. ADMUX is kept and the register pair is unlocked. |
| Adc.ConversionPublished | adc.c:99-111 | The interrupt stores exactly the value of the conversion that completed. |
| Adc.LowFirstNeverTears | adc.c:102-103 | Reading ADCL first, then ADCH, yields the value present at the first read, whatever conversion completes in between. |
| Adc.HighFirstCanTear | adc.c:102-103 | Reading ADCH first can give a value that is neither conversion. With 255 then 256, the result is 0. |
| Adc.StartConversion | adc.c:89-96 | ADSC is set and no other ADCSRA bit changes. |
| Adc.Setup | adc.c:9-86 | ADLAR is cleared, REFS0 is set, the ADMUX low nibble is channel 3, and ADMUX bits 7 and 4 are kept. ADEN, ADIE and ADPS2..0 are set, and ADCSRA bits 6..4 are kept. The stored value is 0. |
| Ports.PinBlocked | ports.c:23-31 | The loop answers true iff the pin is one of the 38 entries of the reserved table. |
| Ports.ReservedPins | ports.c:9-20 | The table has 38 entries. Z step (46) and Z direction (48) are reserved. None of the seven OUT pins and none of the eleven IN pins is reserved. |
| Ports.PinDigitCount | ports.c:76-85 | The pin scan reads at most offsets 4 and 5. It stops at the first of M, R, S, CR or LF. |
| Ports.PortsManage | ports.c:67-116 | The command is accepted iff the pin is not reserved, and a refused command does nothing. Once accepted, the character after the pin digits selects SetMode for M, Write for S and Read for R, each iff that character is present. Any other character selects nothing. |
| Ports.PinCommandScan | ports.c:79-89 | For a line made of a prefix ending in P, one or two pin characters and a selector, the scan finds the selector. |
| Pwm.TimerFreq | pwm.c:59-132 | For timer 4, modes 1..5 give clock select = mode, otherwise 0. For timer 5, modes 1..4 do, otherwise 0. Only CSn2:0 of that timer's TCCRnB changes. Any other timer changes nothing. |
| Pwm.ConfCount | pwm.c:140-152 | Timer 4 sets ICR4 and timer 5 sets OCR5A, each to the value modulo 2^16. Nothing else changes. |
| Pwm.ConfTimerAsWritten | pwm.c:158-193 | As written, timer 4 leaves TCCR4A/B unchanged and writes TCCR5A = 0x02, TCCR5B = 0x18 (timer 5 in mode 14). Timer 5 gets TCCR5A = 0x03, TCCR5B = 0x18 (mode 15). Both clear every COM5x1 bit, disconnecting timer 5's outputs. Only TCCR5A/B change. |
| Pwm.ConfTimer | pwm.c:158-193 | Timer 4 goes to fast PWM mode 14 (TCCR4A = 0x02, TCCR4B = 0x18) and timer 5 to mode 15 (TCCR5A = 0x03, TCCR5B = 0x18). Only that timer's TCCRnA/B change. Its clock is stopped and its outputs are disconnected. Any other timer changes nothing. |
| Pwm.ConfTimerAsWrittenMissesTimer4 | pwm.c:173-181 | From the reset state, the source's timer-4 branch leaves timer 4 in mode 0 and changes timer 5. The intended code gives mode 14 and leaves timer 5 alone. |
| Pwm.ConfTimerAgreesOffTimer4 | pwm.c:183-192 | The written and intended versions agree for every timer other than 4. |
| Pwm.ChannelEnable | pwm.c:202-251 | For OC4A..C and OC5B..C, the compare register takes the value modulo 2^16. Exactly one DDR bit and one COMnx1 bit are set, and every other register and bit is kept. Other pairs change nothing. |
| Pwm.Disable | pwm.c:259-297 | For a supported output, only its COMnx1 bit is cleared, so the compare value and direction stay. Other pairs change nothing. |
| Pwm.DisableIdempotent | pwm.c:259-297 | Disabling twice is the same as disabling once. |
| Pwm.EnableThenDisable | pwm.c:202-297 | Enabling an output that was off and then disabling it restores TCCRnA. The compare value and the output direction stay set. |
| Pwm.ParseRender | pwm.c:308-375 | The fixed-offset dispatch recovers every command from its text, whatever follows it. |
| Pwm.Manage | pwm.c:299-378 | The answer is always 3. These lines change nothing: a line without T at offset 4, a T line with no M, N or C at offset 6, and a C command with no V or D at offset 8. |
| Pwm.ManageRendered | pwm.c:307-375 | A line carrying a command's text has that command's effect on the registers. |
| Pwm.ConfigureTimerEffect | pwm.c:314-323 | The M command leaves the timer in its fast PWM mode, with the clock select of the requested mode and its outputs disconnected. |

## Left out

- Numbers the source converts with `atoi`: the pin, mode and state of `ports_manage`, and the TOP and duty values of `pwmManage`. They come from uninitialised or unterminated buffers, so the model takes them as inputs.
- Ports.PortsManage: requires `line[3] == 'P'`. The source falls off the end of `ports_manage` with no return value on any other line (ports.c:75-116).
- `waintForPin` (ports.c:34-64): a busy-wait on `digitalRead`.
- `pinMode`, `digitalWrite` and `digitalRead` are foreign Arduino code. `ports_manage` records them only as the action it selects. The text it prints is not modelled.
- `_delay_us`, `sei()`, `volatile` and interrupt preemption: each interrupt is one atomic step.
- `timer_setup` and the TCNT2 reload value (timer.c:9-16, 71): constant register writes with no decision in them.
- `pwmTest` (pwm.c:380-391): a bench routine with constant register writes.
- The THC reports of thc_reports.c: printing only.
- `sys_position` is unbounded: the 32-bit wrap-around of the Z step counter is not modelled.
- The PORTL masks of the Z step and direction pins come from the CPU pin map, which is not part of this model. The values used, PL3 for step and PL1 for direction, follow the board pins 46 and 48 reserved in ports.h.
- The REFS1 bit of ADMUX: `adc_setup` sets REFS0 but never clears REFS1, so the AVcc reference its comment names holds only when REFS1 was already 0. `Adc.Setup` states the bits the code writes and keeps bit 7 as it was.
- A single three-valued jog decision (hold, up, down): the code keeps two independent flags, not one decision, and the model follows the code (`Thc.Evaluate` is kept only as the reference decision). A disengaged update keeps the flags rather than holding. So with setpoint 100, hysteresis 5 and readings 100, 94, 106, both flags end raised and the tick steps up (`Thc.FourReadingScenario`).
- Timer.TickIsr: runs the corrected, non-wrapping `Thc.Update`, not the 16-bit band of thc.c:22 that timer.c:67 calls; so do `Timer.Run`, `Timer.SteadyClimb`, `Timer.QuietTicks` and `Timer.EveryEighthTick`. With setpoint 0, hysteresis 1, reading 0 and counter 8 the model's tick leaves `jog_z_up` low where the source raises it (`Thc.AsWrittenWrapsAtZeroSetpoint`).
- Pwm.Manage: the M command applies the corrected `Pwm.ConfTimer`, not the `pwmConfTimer` of pwm.c:173-181 that pwm.c:318 calls; so do `Pwm.Apply`, `Pwm.ManageRendered` and `Pwm.ConfigureTimerEffect`. On a line with `T4M3` at offset 4 the source keeps timer 4's WGM bits and rewrites TCCR5A/B; the model puts timer 4 in mode 14 and leaves timer 5 alone (`Pwm.ConfTimerAsWrittenMissesTimer4`).
- Adc.ConversionIsr: reads ADCL before ADCH. C does not fix the order in which the operands of `|` at adc.c:103 are evaluated, so the model holds only if the compiler emits the low read first; `Adc.HighFirstCanTear` shows what the other order can store.
- Command lines are sequences. Offsets past the end read as NUL rather than whatever memory follows the buffer.

## Findings

| source | as written | input that shows it | evidently intended | confidence | as-written member | corrected member |
|---|---|---|---|---|---|---|
| thc.c:22 | `analogSetVal - hysteresis` and `analogSetVal + hysteresis` are `unsigned int` arithmetic on the AVR (16-bit `int`), so they wrap modulo 65536 | setpoint 3, hysteresis 5, reading 3: the lower bound is 65534, the band is empty, and `jog_z_up` is raised | a band computed without wrap-around, so a reading at the setpoint holds | not executed | Thc.UpdateAsWritten (Thc.AsWrittenWrapsBelowZero) | Thc.Update (Thc.AsWrittenAgreesWithoutWrap, Thc.DefaultBand) |
| pwm.c:173-181 | the timer-4 branch of `pwmConfTimer` writes TCCR5A and TCCR5B | `pwmConfTimer(4)` from reset leaves timer 4 in mode 0 and puts timer 5 in mode 14 | TCCR4A = `1<<WGM41`, TCCR4B = `WGM42\|WGM43`: timer 4 in mode 14, as the comment above it says | not executed | Pwm.ConfTimerAsWritten (Pwm.ConfTimerAsWrittenMissesTimer4) | Pwm.ConfTimer (Pwm.ConfigureTimerEffect) |

=== FILE: adc.dfy ===
/** The analog sampler of adc.c: register set-up, conversion start, and the
    conversion-complete interrupt that assembles the 10-bit result from the
    two data-register bytes and starts the next conversion. */
module Adc {
  import opened Bits

  /** `ADC_CHANNEL_SELECT`: the input channel sampled (ADC3). */
  const ADC_CHANNEL_SELECT: bv8 := 3

  // ADMUX bits
  const REFS0: BitMask := 0x40   // reference select, low bit (AVcc when REFS1:0 = 01)
  const ADLAR: BitMask := 0x20   // left-adjust result

  // ADCSRA bits
  const ADEN: BitMask := 0x80    // converter enable
  const ADSC: BitMask := 0x40    // start conversion
  const ADIE: BitMask := 0x08    // conversion-complete interrupt enable

  /** A 10-bit conversion result. */
  type Sample = v: bv16 | v < 1024

  /** The data register pair ADCH:ADCL. Reading ADCL locks the pair until
      ADCH is read; a conversion that completes while the pair is locked is
      lost (the access protocol of the ATmega2560 data sheet, section 26.8.3). */
  datatype DataRegs = DataRegs(low: bv8, high: bv8, locked: bool)

  /** The converter state the set-up code and the interrupt touch;
      `analogVal` is the `uint16_t` the THC law reads. */
  datatype State = State(admux: bv8, adcsra: bv8, data: DataRegs, analogVal: bv16)

  /** The right-adjusted presentation (ADLAR = 0) of a result: ADCL holds
      bits 7..0, ADCH bits 9..8. */
  function Present(v: Sample): (bytes: (bv8, bv8))
    ensures bytes.1 <= 3
  {
    (LowByte(v), HighByte(v))
  }

  /** A conversion completes with result `v`. */
  function Complete(d: DataRegs, v: Sample): (r: DataRegs)
    ensures d.locked ==> r == d
    ensures !d.locked ==> (r.low, r.high) == Present(v) && !r.locked
  {
    if d.locked then d else DataRegs(Present(v).0, Present(v).1, false)
  }

  /** Read ADCL: returns the low byte and locks the pair. */
  function ReadLow(d: DataRegs): (r: (bv8, DataRegs))
    ensures r.0 == d.low && r.1 == d.(locked := true)
  {
    (d.low, d.(locked := true))
  }

  /** Read ADCH: returns the high byte and releases the pair. */
  function ReadHigh(d: DataRegs): (r: (bv8, DataRegs))
    ensures r.0 == d.high && r.1 == d.(locked := false)
  {
    (d.high, d.(locked := false))
  }

  /** The low byte of a 16-bit value. */
  function LowByte(v: bv16): bv8 { (v & 0xFF) as bv8 }

  /** The high byte of a 16-bit value. */
  function HighByte(v: bv16): bv8 { (v >> 8) as bv8 }

  /** `ADCL | (ADCH << 8)`: the two bytes side by side in one 16-bit value,
      so the low byte and the high byte can be taken back out of it. */
  function Combine(low: bv8, high: bv8): (v: bv16)
    ensures LowByte(v) == low && HighByte(v) == high
    ensures high <= 3 ==> v < 1024
  {
    (low as bv16) | ((high as bv16) << 8)
  }

  /** Presenting a result and combining its two bytes gives it back. */
  lemma PresentCombineRoundTrip(v: Sample)
    ensures Combine(Present(v).0, Present(v).1) == v
  {
  }

  /** `ISR(ADC_vect)`: read ADCL, then ADCH, store the combined value in
      `analogVal`, then set ADSC to start the next conversion. No other
      ADCSRA bit and no ADMUX bit changes; with a right-adjusted result the
      value fits in 10 bits. */
  function ConversionIsr(s: State): (r: State)
    ensures LowByte(r.analogVal) == s.data.low && HighByte(r.analogVal) == s.data.high
    ensures s.data.high <= 3 ==> r.analogVal <= 1023
    ensures IsSet(r.adcsra, ADSC) && SameOutside(s.adcsra, r.adcsra, ADSC)
    ensures r.admux == s.admux
    ensures r.data == s.data.(locked := false)
  {
    var (low, d1) := ReadLow(s.data);
    var (high, d2) := ReadHigh(d1);
    s.(analogVal := Combine(low, high), data := d2, adcsra := s.adcsra | ADSC)
  }

  /** A completed conversion is published unchanged by the interrupt. */
  lemma ConversionPublished(s: State, v: Sample)
    requires !s.data.locked
    ensures ConversionIsr(s.(data := Complete(s.data, v))).analogVal == v
  {
    PresentCombineRoundTrip(v);
  }

  /** Reading low then high never tears: whatever conversion completes
      between the two reads, the combined value is the one present when the
      low byte was read. */
  lemma LowFirstNeverTears(d: DataRegs, v: Sample, w: Sample)
    requires !d.locked
    ensures var (low, d1) := ReadLow(Complete(d, v));
      var (high, _) := ReadHigh(Complete(d1, w));
      Combine(low, high) == v
  {
    PresentCombineRoundTrip(v);
  }

  /** The opposite order can tear: with 255 present, the high byte 0 is read,
      the result 256 completes, and the low byte 0 is read, giving 0, which
      is neither conversion. */
  lemma HighFirstCanTear()
    ensures var d := Complete(DataRegs(0, 0, false), 255);
      var (high, d1) := ReadHigh(d);
      var (low, _) := ReadLow(Complete(d1, 256));
      Combine(low, high) == 0
  {
  }

  /** `start_adc_convertion`: sets ADSC and nothing else. */
  function StartConversion(adcsra: bv8): (r: bv8)
    ensures IsSet(r, ADSC) && SameOutside(adcsra, r, ADSC)
  {
    adcsra | ADSC
  }

  /** `adc_setup`: right-adjusted result, AVcc reference bit, channel 3,
      converter enabled with prescaler 128 and interrupt on. */
  function Setup(s: State): (r: State)
    ensures !IsSet(r.admux, ADLAR) && IsSet(r.admux, REFS0)
    ensures r.admux & 0x0F == ADC_CHANNEL_SELECT
    ensures r.admux & 0x90 == s.admux & 0x90
    ensures IsSet(r.adcsra, ADEN) && IsSet(r.adcsra, ADIE)
    ensures r.adcsra & 0x07 == 0x07
    ensures r.adcsra & 0x70 == s.adcsra & 0x70
    ensures r.analogVal == 0 && r.data == s.data
  {
    var m1 := s.admux & 0xDF;         // clear ADLAR (0b11011111)
    var m2 := m1 | 0x40;              // set REFS0 (0b01000000)
    var m3 := m2 & 0xF0;              // clear MUX3..0 (0b11110000)
    var admux := m3 | ADC_CHANNEL_SELECT;
    var a1 := s.adcsra | 0x80;        // ADEN (0b10000000)
    var a2 := a1 | 0x07;              // ADPS2..0, prescaler 128 (0b00000111)
    var adcsra := a2 | 0x08;          // ADIE (0b00001000)
    s.(analogVal := 0, admux := admux, adcsra := adcsra)
  }
}

=== FILE: bits.dfy ===
/** Single-bit access to the 8-bit I/O registers of the ATmega2560.
    A register write `R |= (1 << k)` or `R &= ~(1 << k)` is modelled as a
    pure function from the old register value to the new one; the bit is
    named by its mask `1 << k`. */
module Bits {

  /** The mask `1 << k` of one bit of an 8-bit register. */
  type BitMask = m: bv8 | m != 0 && m & (m - 1) == 0 witness 1

  /** The bit of `m` reads as 1 in `x`. */
  predicate IsSet(x: bv8, m: BitMask) {
    x & m != 0
  }

  /** `x` and `y` agree on every bit that `m` does not select. */
  predicate SameOutside(x: bv8, y: bv8, m: bv8) {
    x & !m == y & !m
  }

  /** `x | m`: the bit ends set, every other bit is kept. */
  function SetBit(x: bv8, m: BitMask): (r: bv8)
    ensures IsSet(r, m)
    ensures SameOutside(x, r, m)
  {
    x | m
  }

  /** `x & ~m`: the bit ends clear, every other bit is kept. */
  function ClearBit(x: bv8, m: BitMask): (r: bv8)
    ensures !IsSet(r, m)
    ensures SameOutside(x, r, m)
  {
    x & !(m as bv8)
  }

  /** Changes confined to the bits of `m` and then of `n` are confined to the
      bits of `m | n`. */
  lemma SameOutsideTrans(x: bv8, y: bv8, z: bv8, m: bv8, n: bv8)
    requires SameOutside(x, y, m)
    requires SameOutside(y, z, n)
    ensures SameOutside(x, z, m | n)
  {
    assert !(m | n) == !m & !n;
    assert x & !(m | n) == (x & !m) & !n;
    assert z & !(m | n) == (z & !n) & !m;
  }

  /** A bit outside `m` reads the same in two values that agree outside `m`. */
  lemma OtherBitKept(x: bv8, y: bv8, m: bv8, b: BitMask)
    requires SameOutside(x, y, m)
    requires m & b == 0
    ensures IsSet(x, b) == IsSet(y, b)
  {
    assert b & !m == b;
    assert x & b == (x & !m) & b;
    assert y & b == (y & !m) & b;
  }

  /** A 16-bit register or `uint16_t` variable, held as its unsigned value. */
  type Word = x: int | 0 <= x < 0x1_0000

  /** Conversion of an integer to a 16-bit unsigned value, as C's conversion
      to `uint16_t` does: modulo 2^16, also for negative values. */
  function ToWord(v: int): (r: Word)
    ensures (r - v) % 0x1_0000 == 0
    ensures 0 <= v < 0x1_0000 ==> r == v
  {
    v % 0x1_0000
  }
}

=== FILE: line.dfy ===
/** A received command line, as the text parsers of ports.c and pwm.c see it:
    they index the buffer at fixed offsets. Every position past the end of the
    sequence reads as the NUL character. */
module Line {

  /** `line[i]`, with NUL past the end. */
  function At(line: seq<char>, i: nat): (c: char)
    ensures i < |line| ==> c == line[i]
    ensures i >= |line| ==> c == '\0'
  {
    if i < |line| then line[i] else '\0'
  }

  /** `line[i] - '0'` stored into a `uint8_t`: the character code minus 48,
      taken modulo 256. */
  function DigitValue(c: char): (v: int)
    ensures 0 <= v < 256
    ensures '0' <= c <= '9' ==> v == c as int - '0' as int
  {
    (c as int - '0' as int) % 256
  }

  /** The decimal digit character of `d`. */
  function DigitChar(d: nat): (c: char)
    requires d < 10
    ensures '0' <= c <= '9'
    ensures DigitValue(c) == d
  {
    ('0' as int + d) as char
  }
}

=== FILE: ports.dfy ===
/** Pin reservation and the pin command of ports.c. A command line with 'P'
    at offset 3 names a board pin by one or two characters from offset 4 on,
    followed by a selector: 'M' (set mode), 'S' (write state) or 'R' (read).
    Pins used by the machine itself are refused. */
module Ports {
  import opened Line

  // The pins of the machine, as mapped in ports.h.
  const STEP_X := 54
  const STEP_Y := 60
  const STEP_Z := 46
  const STEP_A := 26
  const DIR_X := 55
  const DIR_Y := 61
  const DIR_Z := 48
  const DIR_A := 28
  const ENABLE := 40
  const RELAY_1 := 38
  const RELAY_2 := 39
  const MAX_X := 3
  const MAX_Y := 15
  const MAX_Z := 19
  const MIN_X := 2
  const MIN_Y := 14
  const MIN_Z := 18
  const PROBE := 31
  const PAUSE := 23
  const STOP := 22
  const PLAY := 13
  const JOP_VEL_1 := 10
  const JOP_VEL_2 := 11
  const JOP_VEL_3 := 12
  const JOP_XA := 4
  const JOP_XB := 5
  const JOP_YA := 6
  const JOP_YB := 7
  const JOP_ZA := 8
  const JOP_ZB := 9
  const ANALOG_1 := 94
  const ANALOG_2 := 95
  const ANALOG_3 := 92
  const ANALOG_4 := 93
  const MISO := 50
  const MOSI := 51
  const SCK := 52
  const CS := 53

  // The free general-purpose pins of ports.h.
  const OUT_PINS: seq<int> := [41, 42, 43, 44, 45, 47, 49]
  const IN_PINS: seq<int> := [30, 29, 27, 25, 24, 32, 33, 34, 35, 36, 37]

  /** `workPin`: the 38 pins the command may not touch, in table order. */
  const WORK_PINS: seq<int> := [
    STEP_X, STEP_Y, STEP_Z, STEP_A,
    DIR_X, DIR_Y, DIR_Z, DIR_A,
    ENABLE,
    RELAY_1, RELAY_2,
    MAX_X, MAX_Y, MAX_Z,
    MIN_X, MIN_Y, MIN_Z,
    PROBE, PAUSE, STOP, PLAY,
    JOP_VEL_1, JOP_VEL_2, JOP_VEL_3, JOP_XA, JOP_XB, JOP_YA, JOP_YB, JOP_ZA, JOP_ZB,
    ANALOG_1, ANALOG_2, ANALOG_3, ANALOG_4,
    MISO, MOSI, SCK, CS]

  /** A pin number as the `uint8_t` the parser produces. */
  type PinNumber = p: int | 0 <= p < 256

  /** The pin is one of the machine's own. */
  predicate Reserved(pin: int) {
    pin in WORK_PINS
  }

  /** `pinBlocked`: a linear scan of the table. */
  method PinBlocked(pin: PinNumber) returns (blocked: bool)
    ensures blocked <==> Reserved(pin)
  {
    var j := 0;
    while j < 38
      invariant 0 <= j <= 38
      invariant forall i :: 0 <= i < j ==> WORK_PINS[i] != pin
    {
      if WORK_PINS[j] == pin {
        return true;
      }
      j := j + 1;
    }
    return false;
  }

  /** The table has 38 entries, holds the Z step and direction pins, and
      leaves every general-purpose input and output free. */
  lemma ReservedPins()
    ensures |WORK_PINS| == 38
    ensures Reserved(STEP_Z) && Reserved(DIR_Z)
    ensures forall i :: 0 <= i < |OUT_PINS| ==> !Reserved(OUT_PINS[i])
    ensures forall i :: 0 <= i < |IN_PINS| ==> !Reserved(IN_PINS[i])
  {
    assert WORK_PINS[2] == STEP_Z && WORK_PINS[6] == DIR_Z;
    forall i | 0 <= i < |OUT_PINS| ensures !Reserved(OUT_PINS[i]) {
      NotInTable(OUT_PINS[i]);
    }
    forall i | 0 <= i < |IN_PINS| ensures !Reserved(IN_PINS[i]) {
      NotInTable(IN_PINS[i]);
    }
  }

  /** Apart from 26, 28, 31, 46 and 48, no table entry lies in 24..37 or
      in 41..49. */
  lemma NotInTable(pin: int)
    requires 24 <= pin <= 37 || 41 <= pin <= 49
    requires pin !in {26, 28, 31, 46, 48}
    ensures !Reserved(pin)
  {
    forall i | 0 <= i < |WORK_PINS|
      ensures WORK_PINS[i] != pin
    {
    }
  }

  /** A character that ends the pin number. */
  predicate EndsPinNumber(c: char) {
    c == 'M' || c == 'R' || c == 'S' || c == '\r' || c == '\n'
  }

  /** The scan for the pin digits: how many of the characters at offsets 4
      and 5 belong to the pin number. It stops at the first selector or line
      end and reads at most two characters. */
  function PinDigitCount(line: seq<char>): (n: nat)
    ensures n <= 2
    ensures n >= 1 ==> !EndsPinNumber(At(line, 4))
    ensures n >= 2 ==> !EndsPinNumber(At(line, 5))
    ensures n < 2 ==> EndsPinNumber(At(line, 4 + n))
  {
    if EndsPinNumber(At(line, 4)) then 0
    else if EndsPinNumber(At(line, 5)) then 1
    else 2
  }

  /** The effect on the board the command asks the Arduino layer for. */
  datatype PinAction =
    | NoAction
    | SetMode(pin: PinNumber, mode: int)     // pinMode
    | WritePin(pin: PinNumber, state: int)   // digitalWrite
    | ReadPin(pin: PinNumber)                // digitalRead, reported

  /** What `ports_manage` returns and what it does. */
  datatype Reply = Reply(accepted: bool, action: PinAction)

  /** `ports_manage` for a line with 'P' at offset 3. `pin`, `mode` and
      `state` are the numbers the source converts from the text with `atoi`.
      A reserved pin is refused with no action; otherwise the command is
      accepted and the character after the pin digits selects at most one
      action. */
  function PortsManage(line: seq<char>, pin: PinNumber, mode: int, state: int): (r: Reply)
    requires At(line, 3) == 'P'
    ensures r.accepted <==> !Reserved(pin)
    ensures !r.accepted ==> r.action == NoAction
    ensures r.accepted ==>
      var selector := At(line, 4 + PinDigitCount(line));
      && (selector == 'M' <==> r.action == SetMode(pin, mode))
      && (selector == 'S' <==> r.action == WritePin(pin, state))
      && (selector == 'R' <==> r.action == ReadPin(pin))
      && (selector !in "MSR" <==> r.action == NoAction)
  {
    var n := PinDigitCount(line);
    if Reserved(pin) then Reply(false, NoAction)
    else
      var selector := At(line, 4 + n);
      if selector == 'M' then Reply(true, SetMode(pin, mode))
      else if selector == 'S' then Reply(true, WritePin(pin, state))
      else if selector == 'R' then Reply(true, ReadPin(pin))
      else Reply(true, NoAction)
  }

  /** A well-formed pin command: any four-character prefix with 'P' last,
      one or two pin characters, then a selector. */
  function PinCommand(prefix: seq<char>, digits: seq<char>, selector: char): seq<char> {
    prefix + digits + [selector]
  }

  /** The scan finds the selector written after the pin characters. */
  lemma PinCommandScan(prefix: seq<char>, digits: seq<char>, selector: char)
    requires |prefix| == 4 && prefix[3] == 'P'
    requires 1 <= |digits| <= 2
    requires forall k :: 0 <= k < |digits| ==> !EndsPinNumber(digits[k])
    requires selector in "MSR"
    ensures var line := PinCommand(prefix, digits, selector);
      && At(line, 3) == 'P'
      && PinDigitCount(line) == |digits|
      && At(line, 4 + PinDigitCount(line)) == selector
  {
    var line := PinCommand(prefix, digits, selector);
    assert line[4] == digits[0];
    assert line[4 + |digits|] == selector;
    if |digits| == 2 {
      assert line[5] == digits[1];
    }
  }
}

=== FILE: pwm.dfy ===
/** The PWM driver of pwm.c for the two 16-bit timers 4 and 5 of the
    ATmega2560. Each command is a pure update of the timer register file;
    its contract says which bits it sets and that every other bit stays. */
module Pwm {
  import opened Bits
  import opened Line

  /** The registers the driver writes. TCCRnA holds the compare-output mode
      bits and WGMn1:0, TCCRnB holds WGMn3:2 and the clock select CSn2:0. */
  datatype Regs = Regs(
    tccr4a: bv8, tccr4b: bv8, tccr5a: bv8, tccr5b: bv8,
    ocr4a: Word, ocr4b: Word, ocr4c: Word, icr4: Word,
    ocr5a: Word, ocr5b: Word, ocr5c: Word,
    ddrh: bv8,   // port H directions: PH3..PH5 carry OC4A..OC4C
    ddrl: bv8)   // port L directions: PL4, PL5 carry OC5B, OC5C

  /** An argument of type `uint8_t`. */
  type Byte = x: int | 0 <= x < 256

  /** An argument of type `uint32_t`. */
  type Long = x: int | 0 <= x < 0x1_0000_0000

  /** The timer/channel pairs with an output pin: OC4A, OC4B, OC4C, OC5B,
      OC5C. */
  predicate Supported(timer: int, channel: int) {
    (timer == 4 && 1 <= channel <= 3) || (timer == 5 && 2 <= channel <= 3)
  }

  // TCCRnA: compare-output enable bits COMnx1 (bits 7, 5, 3)
  const COM_A1: BitMask := 0x80
  const COM_B1: BitMask := 0x20
  const COM_C1: BitMask := 0x08

  // Port direction bits of the output pins
  const PH3: BitMask := 0x08   // OC4A
  const PH4: BitMask := 0x10   // OC4B
  const PH5: BitMask := 0x20   // OC4C
  const PL4: BitMask := 0x10   // OC5B
  const PL5: BitMask := 0x20   // OC5C

  /** COMnx1 of output x (A, B, C for channel 1, 2, 3). */
  function ComBit(channel: int): BitMask
    requires 1 <= channel <= 3
  {
    if channel == 1 then COM_A1 else if channel == 2 then COM_B1 else COM_C1
  }

  /** The direction bit of an output pin: PH3, PH4, PH5 on port H for
      OC4A..OC4C and PL4, PL5 on port L for OC5B, OC5C. */
  function DdrBit(timer: int, channel: int): BitMask
    requires Supported(timer, channel)
  {
    if timer == 4 then
      (if channel == 1 then PH3 else if channel == 2 then PH4 else PH5)
    else
      (if channel == 2 then PL4 else PL5)
  }

  /** TCCRnA of timer 4 or 5. */
  function Control(r: Regs, timer: int): bv8
    requires timer == 4 || timer == 5
  {
    if timer == 4 then r.tccr4a else r.tccr5a
  }

  /** TCCRnB of timer 4 or 5. */
  function Clock(r: Regs, timer: int): bv8
    requires timer == 4 || timer == 5
  {
    if timer == 4 then r.tccr4b else r.tccr5b
  }

  /** The direction register of the timer's output port. */
  function Ddr(r: Regs, timer: int): bv8
    requires timer == 4 || timer == 5
  {
    if timer == 4 then r.ddrh else r.ddrl
  }

  /** The compare register OCRnx of a supported output. */
  function Ocr(r: Regs, timer: int, channel: int): Word
    requires Supported(timer, channel)
  {
    if timer == 4 then
      (if channel == 1 then r.ocr4a else if channel == 2 then r.ocr4b else r.ocr4c)
    else
      (if channel == 2 then r.ocr5b else r.ocr5c)
  }

  /** `r` with TCCRnA of `timer` replaced. */
  function WithControl(r: Regs, timer: int, v: bv8): Regs
    requires timer == 4 || timer == 5
  {
    if timer == 4 then r.(tccr4a := v) else r.(tccr5a := v)
  }

  /** `r` with TCCRnB of `timer` replaced. */
  function WithClock(r: Regs, timer: int, v: bv8): Regs
    requires timer == 4 || timer == 5
  {
    if timer == 4 then r.(tccr4b := v) else r.(tccr5b := v)
  }

  /** `r` with the output registers of one channel replaced: its compare
      register, its port direction register and its timer's TCCRnA. */
  function WithChannel(r: Regs, timer: int, channel: int, ocr: Word, ddr: bv8, control: bv8): Regs
    requires Supported(timer, channel)
  {
    if timer == 4 then
      var r1 := r.(ddrh := ddr, tccr4a := control);
      if channel == 1 then r1.(ocr4a := ocr)
      else if channel == 2 then r1.(ocr4b := ocr)
      else r1.(ocr4c := ocr)
    else
      var r1 := r.(ddrl := ddr, tccr5a := control);
      if channel == 2 then r1.(ocr5b := ocr) else r1.(ocr5c := ocr)
  }

  /** The waveform generation mode WGMn3:0, split over TCCRnB bits 4..3 and
      TCCRnA bits 1..0. */
  function WaveMode(a: bv8, b: bv8): int {
    ((b >> 3) & 3) as int * 4 + (a & 3) as int
  }

  /** `TCCRnB = TCCRnB & 0b11111000 | cs`: replace the clock select bits. */
  function SelectClock(b: bv8, cs: bv8): bv8 {
    (b & 0xF8) | cs
  }

  /** `pwmTimerFreq`: timer 4 accepts clock modes 1..5, timer 5 modes 1..4;
      any other mode stops the timer (clock select 0). Only CSn2:0 of the
      timer's TCCRnB changes. */
  function TimerFreq(r: Regs, timer: Byte, mode: Byte): (r': Regs)
    ensures timer == 4 || timer == 5 ==>
      && r' == WithClock(r, timer, Clock(r', timer))
      && Clock(r', timer) & 0xF8 == Clock(r, timer) & 0xF8
    ensures timer == 4 ==> (r'.tccr4b & 7) as int == (if 1 <= mode <= 5 then mode else 0)
    ensures timer == 5 ==> (r'.tccr5b & 7) as int == (if 1 <= mode <= 4 then mode else 0)
    ensures timer != 4 && timer != 5 ==> r' == r
  {
    var r1 :=
      if timer == 4 then
        var cs: bv8 := match mode
          case 1 => 0x01  // clk/1
          case 2 => 0x02  // clk/8
          case 3 => 0x03  // clk/64
          case 4 => 0x04  // clk/256
          case 5 => 0x05  // clk/1024
          case _ => 0x00; // no clock source
        r.(tccr4b := SelectClock(r.tccr4b, cs))
      else r;
    if timer == 5 then
      var cs: bv8 := match mode
        case 1 => 0x01
        case 2 => 0x02
        case 3 => 0x03
        case 4 => 0x04
        case _ => 0x00;
      r1.(tccr5b := SelectClock(r1.tccr5b, cs))
    else r1
  }

  /** `pwmConfCount`: the TOP value, ICR4 for timer 4 and OCR5A for timer
      5, takes `value` truncated to 16 bits; nothing else changes. */
  function ConfCount(r: Regs, timer: Byte, value: Long): (r': Regs)
    ensures timer == 4 ==> r' == r.(icr4 := r'.icr4) && r'.icr4 == value % 0x1_0000
    ensures timer == 5 ==> r' == r.(ocr5a := r'.ocr5a) && r'.ocr5a == value % 0x1_0000
    ensures timer != 4 && timer != 5 ==> r' == r
  {
    var r1 := if timer == 4 then r.(icr4 := ToWord(value)) else r;
    if timer == 5 then r1.(ocr5a := ToWord(value)) else r1
  }

  /** `pwmConfTimer` exactly as written: the timer-4 branch writes the
      registers of timer 5 (TCCR5A = 0x02, TCCR5B = 0x18: mode 14 with the
      clock stopped) and leaves timer 4 untouched; the timer-5 branch writes
      TCCR5A = 0x03, TCCR5B = 0x18 (mode 15). Either way every compare-output
      bit of timer 5 is cleared, so its running outputs are disconnected. */
  function ConfTimerAsWritten(r: Regs, timer: Byte): (r': Regs)
    ensures timer == 4 ==>
      && r'.tccr4a == r.tccr4a && r'.tccr4b == r.tccr4b
      && r'.tccr5a == 0x02 && r'.tccr5b == 0x18
      && WaveMode(r'.tccr5a, r'.tccr5b) == 14 && r'.tccr5b & 7 == 0
    ensures timer == 5 ==>
      && r'.tccr5a == 0x03 && r'.tccr5b == 0x18
      && WaveMode(r'.tccr5a, r'.tccr5b) == 15 && r'.tccr5b & 7 == 0
    ensures timer == 4 || timer == 5 ==>
      !IsSet(r'.tccr5a, COM_B1) && !IsSet(r'.tccr5a, COM_C1)
    ensures timer == 4 || timer == 5 ==> r' == r.(tccr5a := r'.tccr5a, tccr5b := r'.tccr5b)
    ensures timer != 4 && timer != 5 ==> r' == r
  {
    var r1 := if timer == 4 then r.(tccr5a := 0x02, tccr5b := 0x18) else r;
    if timer == 5 then r1.(tccr5a := 0x03, tccr5b := 0x18) else r1
  }

  /** `pwmConfTimer` as its comments intend: timer 4 in fast PWM mode 14
      (TOP in ICR4), timer 5 in fast PWM mode 15 (TOP in OCR5A). Both
      registers of that timer are rewritten, so its clock is stopped and all
      of its outputs are disconnected; the other timer is untouched. */
  function ConfTimer(r: Regs, timer: Byte): (r': Regs)
    ensures timer == 4 ==> WaveMode(r'.tccr4a, r'.tccr4b) == 14
    ensures timer == 5 ==> WaveMode(r'.tccr5a, r'.tccr5b) == 15
    ensures timer == 4 ==> r'.tccr4a == 0x02 && r'.tccr4b == 0x18
    ensures timer == 5 ==> r'.tccr5a == 0x03 && r'.tccr5b == 0x18
    ensures timer == 4 || timer == 5 ==>
      && r' == WithClock(WithControl(r, timer, Control(r', timer)), timer, Clock(r', timer))
      && Clock(r', timer) & 7 == 0
      && Control(r', timer) & 0xFC == 0
    ensures timer != 4 && timer != 5 ==> r' == r
  {
    var r1 := if timer == 4 then r.(tccr4a := 0x02, tccr4b := 0x18) else r;
    if timer == 5 then r1.(tccr5a := 0x03, tccr5b := 0x18) else r1
  }

  /** From the reset state, the source's `pwmConfTimer(4)` leaves timer 4 in
      normal mode 0, where the intended code puts it in mode 14; it also
      overwrites timer 5. */
  lemma ConfTimerAsWrittenMissesTimer4()
    ensures var zero := Regs(0, 0, 0, 0, 0, 0, 0, 0, 0, 0, 0, 0, 0);
      && WaveMode(ConfTimerAsWritten(zero, 4).tccr4a, ConfTimerAsWritten(zero, 4).tccr4b) == 0
      && WaveMode(ConfTimer(zero, 4).tccr4a, ConfTimer(zero, 4).tccr4b) == 14
      && ConfTimerAsWritten(zero, 4).tccr5a != 0
      && ConfTimer(zero, 4).tccr5a == 0
  {
  }

  /** The two versions agree on timer 5 and on every timer other than 4. */
  lemma ConfTimerAgreesOffTimer4(r: Regs, timer: Byte)
    requires timer != 4
    ensures ConfTimerAsWritten(r, timer) == ConfTimer(r, timer)
  {
  }

  /** `pwmChannelEnable`: for a supported output, the compare register takes
      `value` truncated to 16 bits, the pin becomes an output and COMnx1 is
      set (non-inverting PWM). Exactly one DDR bit and one TCCRnA bit change;
      every other register keeps its value. Unsupported pairs change nothing. */
  function ChannelEnable(r: Regs, timer: Byte, channel: Byte, value: int): (r': Regs)
    ensures Supported(timer, channel) ==>
      r' == WithChannel(r, timer, channel, ToWord(value),
                        SetBit(Ddr(r, timer), DdrBit(timer, channel)),
                        SetBit(Control(r, timer), ComBit(channel)))
    ensures Supported(timer, channel) ==>
      && Ocr(r', timer, channel) == ToWord(value)
      && IsSet(Ddr(r', timer), DdrBit(timer, channel))
      && SameOutside(Ddr(r, timer), Ddr(r', timer), DdrBit(timer, channel))
      && IsSet(Control(r', timer), ComBit(channel))
      && SameOutside(Control(r, timer), Control(r', timer), ComBit(channel))
    ensures !Supported(timer, channel) ==> r' == r
  {
    if timer == 4 then
      if channel == 3 then
        r.(ocr4c := ToWord(value), ddrh := SetBit(r.ddrh, PH5), tccr4a := SetBit(r.tccr4a, COM_C1))
      else if channel == 2 then
        r.(ocr4b := ToWord(value), ddrh := SetBit(r.ddrh, PH4), tccr4a := SetBit(r.tccr4a, COM_B1))
      else if channel == 1 then
        r.(ocr4a := ToWord(value), ddrh := SetBit(r.ddrh, PH3), tccr4a := SetBit(r.tccr4a, COM_A1))
      else r
    else if timer == 5 then
      if channel == 3 then
        r.(ocr5c := ToWord(value), ddrl := SetBit(r.ddrl, PL5), tccr5a := SetBit(r.tccr5a, COM_C1))
      else if channel == 2 then
        r.(ocr5b := ToWord(value), ddrl := SetBit(r.ddrl, PL4), tccr5a := SetBit(r.tccr5a, COM_B1))
      else r
    else r
  }

  /** `pwmDisable`: for a supported output, COMnx1 is cleared, which
      disconnects the pin from the timer; only that bit changes, so the
      compare value and the pin direction stay. Unsupported pairs change
      nothing. */
  function Disable(r: Regs, timer: Byte, channel: Byte): (r': Regs)
    ensures Supported(timer, channel) ==>
      r' == WithControl(r, timer, ClearBit(Control(r, timer), ComBit(channel)))
    ensures Supported(timer, channel) ==>
      && !IsSet(Control(r', timer), ComBit(channel))
      && SameOutside(Control(r, timer), Control(r', timer), ComBit(channel))
    ensures !Supported(timer, channel) ==> r' == r
  {
    if timer == 4 then
      if channel == 3 then r.(tccr4a := ClearBit(r.tccr4a, COM_C1))
      else if channel == 2 then r.(tccr4a := ClearBit(r.tccr4a, COM_B1))
      else if channel == 1 then r.(tccr4a := ClearBit(r.tccr4a, COM_A1))
      else r
    else if timer == 5 then
      if channel == 3 then r.(tccr5a := ClearBit(r.tccr5a, COM_C1))
      else if channel == 2 then r.(tccr5a := ClearBit(r.tccr5a, COM_B1))
      else r
    else r
  }

  /** Disabling twice is disabling once. */
  lemma DisableIdempotent(r: Regs, timer: Byte, channel: Byte)
    ensures Disable(Disable(r, timer, channel), timer, channel) == Disable(r, timer, channel)
  {
  }

  /** Enabling an output that was off and then disabling it restores its
      TCCRnA, and leaves the compare value and the output direction set. */
  lemma EnableThenDisable(r: Regs, timer: Byte, channel: Byte, value: int)
    requires Supported(timer, channel)
    requires !IsSet(Control(r, timer), ComBit(channel))
    ensures var r' := Disable(ChannelEnable(r, timer, channel, value), timer, channel);
      && Control(r', timer) == Control(r, timer)
      && Ocr(r', timer, channel) == ToWord(value)
      && IsSet(Ddr(r', timer), DdrBit(timer, channel))
  {
  }

  /** A PWM command, as selected by the fixed offsets of the line. */
  datatype Command =
    | ConfigureTimer(timer: Byte, mode: Byte)   // 'M': waveform mode, then clock
    | SetTop(timer: Byte)                        // 'N': TOP value
    | EnableChannel(timer: Byte, channel: Byte)  // 'C' ... 'V': duty cycle
    | DisableChannel(timer: Byte, channel: Byte) // 'C' ... 'D'
    | Ignored

  /** The dispatch of `pwmManage`: 'T' at offset 4, the timer digit at 5,
      the selector at 6, the mode or channel digit at 7, and for a channel
      'V' or 'D' at 8. */
  function Parse(line: seq<char>): Command {
    if At(line, 4) != 'T' then Ignored
    else
      var timer := DigitValue(At(line, 5));
      if At(line, 6) == 'M' then ConfigureTimer(timer, DigitValue(At(line, 7)))
      else if At(line, 6) == 'N' then SetTop(timer)
      else if At(line, 6) == 'C' then
        var channel := DigitValue(At(line, 7));
        if At(line, 8) == 'V' then EnableChannel(timer, channel)
        else if At(line, 8) == 'D' then DisableChannel(timer, channel)
        else Ignored
      else Ignored
  }

  /** The text of a command after a four-character prefix; the numeric
      argument of 'N' and 'V' would follow it. */
  function Render(prefix: seq<char>, c: Command): seq<char>
    requires c.ConfigureTimer? || c.SetTop? || c.EnableChannel? || c.DisableChannel? ==> c.timer < 10
    requires c.ConfigureTimer? ==> c.mode < 10
    requires c.EnableChannel? || c.DisableChannel? ==> c.channel < 10
  {
    match c
    case ConfigureTimer(t, m) => prefix + ['T', DigitChar(t), 'M', DigitChar(m)]
    case SetTop(t) => prefix + ['T', DigitChar(t), 'N']
    case EnableChannel(t, ch) => prefix + ['T', DigitChar(t), 'C', DigitChar(ch), 'V']
    case DisableChannel(t, ch) => prefix + ['T', DigitChar(t), 'C', DigitChar(ch), 'D']
    case Ignored => prefix
  }

  /** Parsing a rendered command, whatever follows it, gives the command
      back. */
  lemma ParseRender(prefix: seq<char>, c: Command, tail: seq<char>)
    requires |prefix| == 4
    requires !c.Ignored?
    requires c.timer < 10
    requires c.ConfigureTimer? ==> c.mode < 10
    requires c.EnableChannel? || c.DisableChannel? ==> c.channel < 10
    ensures Parse(Render(prefix, c) + tail) == c
  {
    var line := Render(prefix, c) + tail;
    assert line[4] == 'T' && line[5] == DigitChar(c.timer);
    match c
    case ConfigureTimer(t, m) =>
      assert line[6] == 'M' && line[7] == DigitChar(m);
    case SetTop(t) =>
      assert line[6] == 'N';
    case EnableChannel(t, ch) =>
      assert line[6] == 'C' && line[7] == DigitChar(ch) && line[8] == 'V';
    case DisableChannel(t, ch) =>
      assert line[6] == 'C' && line[7] == DigitChar(ch) && line[8] == 'D';
  }

  /** One command applied to the registers. `top` and `duty` are the numbers
      the source converts from the text with `atoi`. */
  function Apply(r: Regs, c: Command, top: Long, duty: Long): Regs {
    match c
    case ConfigureTimer(t, m) => TimerFreq(ConfTimer(r, t), t, m)
    case SetTop(t) => ConfCount(r, t, top)
    case EnableChannel(t, ch) => ChannelEnable(r, t, ch, duty)
    case DisableChannel(t, ch) => Disable(r, t, ch)
    case Ignored => r
  }

  /** `pwmManage`: applies the command the line selects and always answers
      3; a line without 'T' at offset 4 changes nothing. */
  function Manage(r: Regs, line: seq<char>, top: Long, duty: Long): (result: (Regs, int))
    ensures result.1 == 3
    ensures At(line, 4) != 'T' ==> result.0 == r
    ensures At(line, 4) == 'T' && At(line, 6) !in "MNC" ==> result.0 == r
    ensures At(line, 4) == 'T' && At(line, 6) == 'C' && At(line, 8) !in "VD" ==> result.0 == r
  {
    (Apply(r, Parse(line), top, duty), 3)
  }

  /** A line carrying the text of a command, whatever follows it, has that
      command's effect on the registers. */
  lemma ManageRendered(r: Regs, prefix: seq<char>, c: Command, tail: seq<char>, top: Long, duty: Long)
    requires |prefix| == 4
    requires !c.Ignored?
    requires c.timer < 10
    requires c.ConfigureTimer? ==> c.mode < 10
    requires c.EnableChannel? || c.DisableChannel? ==> c.channel < 10
    ensures Manage(r, Render(prefix, c) + tail, top, duty) == (Apply(r, c, top, duty), 3)
  {
    ParseRender(prefix, c, tail);
  }

  /** The 'M' command leaves the timer in its fast PWM mode with the clock
      select of the requested mode and its outputs disconnected. */
  lemma ConfigureTimerEffect(r: Regs, timer: Byte, mode: Byte)
    requires timer == 4 || timer == 5
    ensures var r' := Apply(r, ConfigureTimer(timer, mode), 0, 0);
      && WaveMode(Control(r', timer), Clock(r', timer)) == (if timer == 4 then 14 else 15)
      && (Clock(r', timer) & 7) as int ==
         (if 1 <= mode <= (if timer == 4 then 5 else 4) then mode else 0)
      && Control(r', timer) & 0xFC == 0
  {
  }
}

=== FILE: thc.dfy ===
/** The torch-height control law of thc.c: a bang-bang controller with a
    hysteresis band around a voltage setpoint. Its output is the pair of jog
    flags `jog_z_up` / `jog_z_down`, two independent booleans that the Timer2
    tick handler reads. */
module Thc {
  import opened Bits

  /** The THC globals of thc.h. */
  datatype State = State(
    jogUp: bool,       // jog_z_up: the torch must be raised
    jogDown: bool,     // jog_z_down: the torch must be lowered
    hysteresis: Word,  // allowed deviation from the setpoint
    setpoint: Word,    // analogSetVal: the voltage to hold
    working: bool)     // thcWorking: the controller is engaged

  /** A single jog decision; the reference reading of the control law. */
  datatype Intent = Hold | Up | Down

  /** The reading lies strictly inside the hysteresis band, computed without
      wrap-around. */
  predicate InBand(reading: int, setpoint: int, hysteresis: int) {
    setpoint - hysteresis < reading < setpoint + hysteresis
  }

  /** The control law as a decision: hold inside the band; outside it, a
      reading above the setpoint means the torch is too high (move down),
      otherwise it is too low (move up). */
  function Evaluate(reading: int, setpoint: int, hysteresis: int): Intent {
    if InBand(reading, setpoint, hysteresis) then Hold
    else if reading > setpoint then Down
    else Up
  }

  /** `thc_initialize`: default setpoint 3, hysteresis 1, controller off.
      The jog flags are not touched. */
  function Initialize(s: State): (r: State)
    ensures r.setpoint == 3 && r.hysteresis == 1 && !r.working
    ensures r.jogUp == s.jogUp && r.jogDown == s.jogDown
  {
    s.(hysteresis := 1, setpoint := 3, working := false)
  }

  /** `thc_update` with the band computed in unbounded integers (see
      `UpdateAsWritten` for the 16-bit arithmetic of the source). Inside the
      band both flags are cleared; outside it exactly one flag is raised and
      the other keeps its value. */
  function Update(s: State, reading: Word): (r: State)
    ensures r.hysteresis == s.hysteresis && r.setpoint == s.setpoint
    ensures r.working == s.working
    ensures !s.working ==> r == s
    ensures s.working ==>
      match Evaluate(reading, s.setpoint, s.hysteresis)
      case Hold => !r.jogUp && !r.jogDown
      case Up => r.jogUp && r.jogDown == s.jogDown
      case Down => r.jogDown && r.jogUp == s.jogUp
  {
    if s.working then
      if reading > s.setpoint - s.hysteresis && reading < s.setpoint + s.hysteresis then
        s.(jogUp := false, jogDown := false)
      else if reading > s.setpoint then
        s.(jogDown := true)
      else
        s.(jogUp := true)
    else
      s
  }

  /** The band test exactly as compiled for the AVR, where `int` has 16 bits
      and `uint16_t` is `unsigned int`: both bounds are computed modulo 2^16. */
  predicate InBandAsWritten(reading: Word, setpoint: Word, hysteresis: Word) {
    reading > ToWord(setpoint - hysteresis) && reading < ToWord(setpoint + hysteresis)
  }

  /** `thc_update` exactly as written, with the wrapping band bounds. */
  function UpdateAsWritten(s: State, reading: Word): (r: State)
    ensures r.hysteresis == s.hysteresis && r.setpoint == s.setpoint
    ensures r.working == s.working
    ensures !s.working ==> r == s
    ensures s.working && InBandAsWritten(reading, s.setpoint, s.hysteresis) ==>
      !r.jogUp && !r.jogDown
    ensures s.working && !InBandAsWritten(reading, s.setpoint, s.hysteresis) ==>
      && (reading > s.setpoint ==> r.jogDown && r.jogUp == s.jogUp)
      && (reading <= s.setpoint ==> r.jogUp && r.jogDown == s.jogDown)
  {
    if s.working then
      if InBandAsWritten(reading, s.setpoint, s.hysteresis) then
        s.(jogUp := false, jogDown := false)
      else if reading > s.setpoint then
        s.(jogDown := true)
      else
        s.(jogUp := true)
    else
      s
  }

  /** While neither band bound leaves 0..65535 the source's arithmetic and
      the integer band agree on every reading. */
  lemma AsWrittenAgreesWithoutWrap(s: State, reading: Word)
    requires s.hysteresis <= s.setpoint
    requires s.setpoint + s.hysteresis < 0x1_0000
    ensures UpdateAsWritten(s, reading) == Update(s, reading)
  {
  }

  /** With the hysteresis above the setpoint the lower bound wraps to a large
      value, the band becomes empty and the reading at the setpoint jogs the
      torch up instead of holding it. */
  lemma AsWrittenWrapsBelowZero()
    ensures var s := State(false, false, 5, 3, true);
      && Update(s, 3) == s
      && UpdateAsWritten(s, 3).jogUp
    ensures forall reading: Word :: !InBandAsWritten(reading, 3, 5)
  {
  }

  /** With setpoint 0 and the default hysteresis 1, the lower bound wraps to
      65535: the reading 0, in band for the integer law, raises `jog_z_up`
      in the source's arithmetic. */
  lemma AsWrittenWrapsAtZeroSetpoint()
    ensures var s := State(false, false, 1, 0, true);
      && Update(s, 0) == s
      && UpdateAsWritten(s, 0).jogUp
  {
  }

  /** A reading equal to either band edge is out of band and takes the
      direction branch. Each edge is claimed whenever it is itself a reading
      in 0..65535, independently of the other. */
  lemma EdgesAreOutOfBand(s: State)
    requires s.working
    ensures s.hysteresis <= s.setpoint ==>
      var low := s.setpoint - s.hysteresis;
      Update(s, low).jogUp && Update(s, low).jogDown == s.jogDown
    ensures s.setpoint + s.hysteresis < 0x1_0000 ==>
      var high := s.setpoint + s.hysteresis;
      s.hysteresis > 0 ==> Update(s, high).jogDown && Update(s, high).jogUp == s.jogUp
  {
  }

  /** With zero hysteresis the band is empty: an update never clears a flag. */
  lemma ZeroHysteresisNeverClears(s: State, reading: Word)
    requires s.hysteresis == 0
    ensures s.jogUp ==> Update(s, reading).jogUp
    ensures s.jogDown ==> Update(s, reading).jogDown
  {
  }

  /** Under the defaults of `thc_initialize` only the reading 3 is in band. */
  lemma DefaultBand(s: State, reading: Word)
    ensures var d := Initialize(s);
      InBand(reading, d.setpoint, d.hysteresis) <==> reading == 3
  {
  }

  /** A flag is only ever cleared by an engaged update on an in-band reading. */
  lemma ClearsOnlyInBand(s: State, reading: Word)
    ensures (s.jogUp && !Update(s, reading).jogUp) || (s.jogDown && !Update(s, reading).jogDown)
      ==> s.working && InBand(reading, s.setpoint, s.hysteresis)
  {
  }

  /** The updates over a sequence of readings, in order. */
  function UpdateAll(s: State, readings: seq<Word>): (r: State)
    ensures r.hysteresis == s.hysteresis && r.setpoint == s.setpoint
    ensures r.working == s.working
    decreases |readings|
  {
    if readings == [] then s else UpdateAll(Update(s, readings[0]), readings[1..])
  }

  /** Once both flags are raised they stay raised until an engaged update
      sees an in-band reading. */
  lemma {:induction false} BothStayUntilInBand(s: State, readings: seq<Word>)
    requires s.jogUp && s.jogDown
    requires forall i :: 0 <= i < |readings| ==>
      !s.working || !InBand(readings[i], s.setpoint, s.hysteresis)
    ensures UpdateAll(s, readings).jogUp && UpdateAll(s, readings).jogDown
    decreases |readings|
  {
    if readings != [] {
      var s' := Update(s, readings[0]);
      forall i | 0 <= i < |readings[1..]|
        ensures !s'.working || !InBand(readings[1..][i], s'.setpoint, s'.hysteresis)
      {
        assert readings[1..][i] == readings[i + 1];
      }
      BothStayUntilInBand(s', readings[1..]);
    }
  }

  /** Setpoint 100, hysteresis 5, readings 100, 94, 106, 97: the decisions are
      hold, up, down, hold, but because a raised flag is never lowered outside
      the band, after 106 both flags are set; 97 clears them both. */
  lemma FourReadingScenario()
    ensures var s0 := State(false, false, 5, 100, true);
      var s1 := Update(s0, 100);
      var s2 := Update(s1, 94);
      var s3 := Update(s2, 106);
      var s4 := Update(s3, 97);
      && [Evaluate(100, 100, 5), Evaluate(94, 100, 5), Evaluate(106, 100, 5), Evaluate(97, 100, 5)]
         == [Hold, Up, Down, Hold]
      && !s1.jogUp && !s1.jogDown
      && s2.jogUp && !s2.jogDown
      && s3.jogUp && s3.jogDown
      && !s4.jogUp && !s4.jogDown
  {
  }
}

=== FILE: timer.dfy ===
/** The Timer2 overflow interrupt of timer.c, taken as one atomic transition:
    at most one Z step toward the current jog flags, the matching update of
    `sys_position[Z_AXIS]`, and on every eighth tick one run of the THC law. */
module Timer {
  import opened Bits
  import Thc

  /** Index of the Z axis in `sys_position`. */
  const Z_AXIS: nat := 2

  /** The PORTL bits of the Z stepper driver, `1 << Z_STEP` and
      `1 << Z_DIR`. The CPU pin map that defines those indices is
      not part of this model; the values here follow the board pins reserved
      in ports.h, Z step on digital pin 46 (PL3) and Z direction on digital
      pin 48 (PL1). */
  const Z_STEP: BitMask := 0x08   // PL3
  const Z_DIR: BitMask := 0x02    // PL1

  /** Bit 2 of `dir_invert_mask`: the Z direction is inverted. */
  const Z_INVERT: BitMask := 0x04           // 1 << 2

  /** The state the tick handler reads and writes. */
  datatype State = State(
    thc: Thc.State,        // jog flags and THC configuration
    position: seq<int>,    // sys_position, one step counter per axis
    millis: nat,           // millis_timer, the divide-by-8 counter
    portL: bv8)            // the PORTL output register

  /** `sys_position` has an entry for the Z axis. */
  predicate WellFormed(s: State) {
    |s.position| > Z_AXIS
  }

  /** `step_z`: the two successive PORTL writes of one step pulse, step bit
      high and then low again; no other bit moves. */
  function StepZ(port: bv8): (writes: seq<bv8>)
    ensures |writes| == 2
    ensures IsSet(writes[0], Z_STEP) && !IsSet(writes[1], Z_STEP)
    ensures SameOutside(port, writes[0], Z_STEP)
    ensures SameOutside(port, writes[1], Z_STEP)
  {
    var high := SetBit(port, Z_STEP);
    [high, ClearBit(high, Z_STEP)]
  }

  /** `set_z_dir_high` (when `high`) and `set_z_dir_low`: only the direction
      bit changes. */
  function SetZDir(port: bv8, high: bool): (r: bv8)
    ensures IsSet(r, Z_DIR) == high
    ensures SameOutside(port, r, Z_DIR)
  {
    if high then SetBit(port, Z_DIR) else ClearBit(port, Z_DIR)
  }

  /** The bit of `m` goes from 0 to 1 between two successive values. */
  predicate Rises(before: bv8, after: bv8, m: BitMask) {
    !IsSet(before, m) && IsSet(after, m)
  }

  /** The number of times the bit of `m` goes from 0 to 1 over a series of
      writes to a register that held `prev`. */
  function RisingEdges(prev: bv8, writes: seq<bv8>, m: BitMask): nat
    decreases |writes|
  {
    if writes == [] then 0
    else (if Rises(prev, writes[0], m) then 1 else 0) + RisingEdges(writes[0], writes[1..], m)
  }

  /** The rising edges over three writes, counted write by write. */
  lemma RisingEdgesOfThree(prev: bv8, a: bv8, b: bv8, c: bv8, m: BitMask)
    ensures RisingEdges(prev, [a, b, c], m) ==
      (if Rises(prev, a, m) then 1 else 0) + (if Rises(a, b, m) then 1 else 0)
      + (if Rises(b, c, m) then 1 else 0)
  {
    assert [a, b, c][1..] == [b, c];
    assert [b, c][1..] == [c];
    assert [c][1..] == [];
    assert RisingEdges(c, [], m) == 0;
    assert RisingEdges(b, [c], m) == if Rises(b, c, m) then 1 else 0;
    assert RisingEdges(a, [b, c], m) == (if Rises(a, b, m) then 1 else 0) + RisingEdges(b, [c], m);
  }

  /** Every write of the series leaves the direction bit at `high`. Together
      with a first write that touches only the direction bit and a second
      that raises the step bit, this puts the direction in place before the
      step pulse. */
  predicate DirectionHeld(writes: seq<bv8>, high: bool) {
    forall k :: 0 <= k < |writes| ==> IsSet(writes[k], Z_DIR) == high
  }

  /** The series opens with a write that changes only the direction bit
      relative to `port`, and its second write has the step bit high. */
  predicate DirectionFirst(port: bv8, writes: seq<bv8>) {
    |writes| >= 2 && SameOutside(port, writes[0], Z_DIR) && IsSet(writes[1], Z_STEP)
  }

  /** No write of the series moves a PORTL bit other than Z step and Z
      direction, relative to the value `port` held before the series. */
  predicate OnlyZPinsMove(port: bv8, writes: seq<bv8>) {
    forall k :: 0 <= k < |writes| ==> SameOutside(port, writes[k], Z_STEP | Z_DIR)
  }

  /** One step: the direction write, then the two writes of the step pulse.
      The first write changes only the direction bit, which holds its level
      from then on; the step bit is high in the second write and low in the
      third, so the pulse gives it at most one rising edge, exactly one when
      it was low before. */
  function StepWrites(port: bv8, dirHigh: bool): (writes: seq<bv8>)
    ensures |writes| == 3
    ensures DirectionHeld(writes, dirHigh)
    ensures DirectionFirst(port, writes)
    ensures !IsSet(writes[2], Z_STEP)
    ensures OnlyZPinsMove(port, writes)
    ensures RisingEdges(port, writes, Z_STEP) <= 1
    ensures !IsSet(port, Z_STEP) ==> RisingEdges(port, writes, Z_STEP) == 1
  {
    var d := SetZDir(port, dirHigh);
    var pulse := StepZ(d);
    RisingEdgesOfThree(port, d, pulse[0], pulse[1], Z_STEP);
    OtherBitKept(port, d, Z_DIR, Z_STEP);
    OtherBitKept(d, pulse[0], Z_STEP, Z_DIR);
    OtherBitKept(d, pulse[1], Z_STEP, Z_DIR);
    SameOutsideTrans(port, d, d, Z_DIR, Z_STEP);
    SameOutsideTrans(port, d, pulse[0], Z_DIR, Z_STEP);
    SameOutsideTrans(port, d, pulse[1], Z_DIR, Z_STEP);
    assert Z_DIR | Z_STEP == Z_STEP | Z_DIR;
    [d, pulse[0], pulse[1]]
  }

  /** `sys_position[Z_AXIS] += delta`: no other axis moves. */
  function MoveZ(position: seq<int>, delta: int): (r: seq<int>)
    requires |position| > Z_AXIS
    ensures |r| == |position|
    ensures r[Z_AXIS] == position[Z_AXIS] + delta
    ensures forall i :: 0 <= i < |position| && i != Z_AXIS ==> r[i] == position[i]
  {
    position[Z_AXIS := position[Z_AXIS] + delta]
  }

  /** The stepping half of a tick: the change of the Z position, the PORTL
      writes in order and the final PORTL value. */
  datatype Jog = Jog(delta: int, writes: seq<bv8>, portL: bv8)

  /** One step, up or down: set the direction pin, then pulse the step pin.
      The direction pin ends high iff the move is downward xor `invert`
      (bit 2 of the inversion mask). */
  function StepOnce(port: bv8, up: bool, invert: bool): (j: Jog)
    ensures j.delta == if up then 1 else -1
    ensures |j.writes| == 3 && j.portL == j.writes[2]
    ensures DirectionHeld(j.writes, !up != invert)
    ensures DirectionFirst(port, j.writes)
    ensures OnlyZPinsMove(port, j.writes)
    ensures IsSet(j.portL, Z_DIR) == (!up != invert)
    ensures !IsSet(j.portL, Z_STEP)
    ensures RisingEdges(port, j.writes, Z_STEP) <= 1
    ensures !IsSet(port, Z_STEP) ==> RisingEdges(port, j.writes, Z_STEP) == 1
    ensures SameOutside(port, j.portL, Z_STEP | Z_DIR)
  {
    if up then
      var w := StepWrites(port, invert);
      Jog(1, w, w[2])
    else
      var w := StepWrites(port, !invert);
      Jog(-1, w, w[2])
  }

  /** The two jog branches of the tick handler, on the jog flags held on
      entry; `jog_z_up` wins when both are set. */
  function StepJog(thc: Thc.State, port: bv8, invertMask: bv8): (j: Jog)
    ensures j.delta == if thc.jogUp then 1 else if thc.jogDown then -1 else 0
    ensures !thc.jogUp && !thc.jogDown ==> j.writes == [] && j.portL == port
    ensures thc.jogUp || thc.jogDown ==>
      && |j.writes| == 3
      && DirectionHeld(j.writes, !thc.jogUp != IsSet(invertMask, Z_INVERT))
      && DirectionFirst(port, j.writes)
      && IsSet(j.portL, Z_DIR) == (!thc.jogUp != IsSet(invertMask, Z_INVERT))
      && !IsSet(j.portL, Z_STEP)
      && (!IsSet(port, Z_STEP) ==> RisingEdges(port, j.writes, Z_STEP) == 1)
    ensures RisingEdges(port, j.writes, Z_STEP) <= 1
    ensures OnlyZPinsMove(port, j.writes)
    ensures SameOutside(port, j.portL, Z_STEP | Z_DIR)
  {
    var invert := IsSet(invertMask, Z_INVERT);   // settings.dir_invert_mask & (1 << 2)
    if thc.jogUp then StepOnce(port, true, invert)
    else if thc.jogDown then StepOnce(port, false, invert)
    else Jog(0, [], port)
  }

  /** The result of one tick: the new state and the PORTL writes, in order. */
  datatype Tick = Tick(next: State, writes: seq<bv8>)

  /** `ISR(TIMER2_OVF_vect)`. `invertMask` is `settings.dir_invert_mask`,
      `reading` is the latest `analogVal`. The step is taken on the jog flags
      held on entry, before the THC law runs in the same tick; the law runs
      iff the counter is above 7 on entry, and the counter then restarts. */
  function TickIsr(s: State, invertMask: bv8, reading: Word): (t: Tick)
    requires WellFormed(s)
    ensures WellFormed(t.next)
    ensures var j := StepJog(s.thc, s.portL, invertMask);
      t.next.position == MoveZ(s.position, j.delta) && t.writes == j.writes && t.next.portL == j.portL
    ensures s.millis > 7 ==> t.next.thc == Thc.Update(s.thc, reading) && t.next.millis == 1
    ensures s.millis <= 7 ==> t.next.thc == s.thc && t.next.millis == s.millis + 1
  {
    var j := StepJog(s.thc, s.portL, invertMask);
    var fire := s.millis > 7;
    var thc := if fire then Thc.Update(s.thc, reading) else s.thc;
    var millis := (if fire then 0 else s.millis) + 1;
    Tick(State(thc, MoveZ(s.position, j.delta), millis, j.portL), j.writes)
  }

  /** The state after one tick per reading, in order. */
  function Run(s: State, invertMask: bv8, readings: seq<Word>): (r: State)
    requires WellFormed(s)
    ensures WellFormed(r)
    ensures |r.position| == |s.position|
    ensures forall i :: 0 <= i < |s.position| && i != Z_AXIS ==> r.position[i] == s.position[i]
    ensures readings != [] ==> 1 <= r.millis <= 8
    ensures r.thc.working == s.thc.working
    ensures r.thc.setpoint == s.thc.setpoint && r.thc.hysteresis == s.thc.hysteresis
    decreases |readings|
  {
    if readings == [] then s
    else Run(TickIsr(s, invertMask, readings[0]).next, invertMask, readings[1..])
  }

  /** With `jog_z_up` raised and no engaged update seeing an in-band reading,
      every tick steps up: n ticks raise the Z position by exactly n. This
      holds also with the controller switched off, since the flags then keep
      their last values. */
  lemma {:induction false} SteadyClimb(s: State, invertMask: bv8, readings: seq<Word>)
    requires WellFormed(s)
    requires s.thc.jogUp
    requires forall i :: 0 <= i < |readings| ==>
      !s.thc.working || !Thc.InBand(readings[i], s.thc.setpoint, s.thc.hysteresis)
    ensures Run(s, invertMask, readings).position[Z_AXIS] == s.position[Z_AXIS] + |readings|
    ensures Run(s, invertMask, readings).thc.jogUp
    decreases |readings|
  {
    if readings != [] {
      var s' := TickIsr(s, invertMask, readings[0]).next;
      forall i | 0 <= i < |readings[1..]|
        ensures !s'.thc.working || !Thc.InBand(readings[1..][i], s'.thc.setpoint, s'.thc.hysteresis)
      {
        assert readings[1..][i] == readings[i + 1];
      }
      SteadyClimb(s', invertMask, readings[1..]);
    }
  }

  /** From a counter value m in 1..8, the next 8 - m ticks do not run the law
      and leave the counter at 8. */
  lemma {:induction false} QuietTicks(s: State, invertMask: bv8, readings: seq<Word>)
    requires WellFormed(s)
    requires 1 <= s.millis && s.millis + |readings| <= 8
    ensures Run(s, invertMask, readings).millis == s.millis + |readings|
    ensures Run(s, invertMask, readings).thc == s.thc
    decreases |readings|
  {
    if readings != [] {
      QuietTicks(TickIsr(s, invertMask, readings[0]).next, invertMask, readings[1..]);
    }
  }

  /** The THC law runs on exactly every eighth tick: a tick that runs it is
      followed by seven that do not, and the eighth runs it again. */
  lemma EveryEighthTick(s: State, invertMask: bv8, readings: seq<Word>)
    requires WellFormed(s)
    requires s.millis > 7
    requires |readings| == 9
    ensures var s1 := TickIsr(s, invertMask, readings[0]).next;
      var s8 := Run(s1, invertMask, readings[1..8]);
      && s1.thc == Thc.Update(s.thc, readings[0])
      && s8.thc == s1.thc
      && s8.millis == 8
      && TickIsr(s8, invertMask, readings[8]).next.thc == Thc.Update(s8.thc, readings[8])
  {
    var s1 := TickIsr(s, invertMask, readings[0]).next;
    QuietTicks(s1, invertMask, readings[1..8]);
  }
}
